=== FILE: README.md ===
# autosmp: a Dafny model of the CPU-hotplug governor

autosmp is a Linux kernel governor for arm64 that brings secondary CPU cores
online and takes them offline. Its periodic work function samples every
online core's clock rate. It then applies at most one hotplug command:
bring the lowest offline core up, or take the slowest secondary core down.
A hysteresis counter (`cycle`) makes the governor wait until `cycle_up`
or `cycle_down` cycles have passed since its last command. The counter
grows on every cycle, qualifying or not, so one qualifying sample can act
at once after enough idle cycles. A state notifier collapses
the system to core 0 when the screen goes off and restores the cores when
it comes back. A sysfs surface holds eight range-checked tunables and an
`enabled` switch that starts and stops the governor.

The model is pure functional Dafny:

- `base.dfy` (`Base`): C `unsigned int` / `int` types, 32-bit wrap-around, and the int-to-unsigned conversion.
- `tunables.dfy` (`Tunables`): the tunables record, `store_one` for each field, and the validation in `store_enabled`.
- `hotplug.dfy` (`Hotplug`): the topology (`nr_cpu_ids`, the present set). `cpu_up` and `cpu_down` take a `fails` set: the cores whose command the kernel refuses.
- `decision.dfy` (`Decision`): the thresholds, the ascending scan as a fold, `cpumask_next_zero`, and one cycle of `asmp_work_fn`.
- `hysteresis.dfy` (`Hysteresis`): cycles repeated under a steady load.
- `cycle_scenarios.dfy` (`CycleScenarios`): concrete cycles.
- `power.dfy` (`Power`): suspend, resume, the restore in stop, and the notifier dispatch.
- `lifecycle.dfy` (`Lifecycle`): start, stop, `store_enabled`, the work item firing, and event delivery.

Frequencies are an input map. A core with no entry reads 0, as
`cpufreq_quick_get` reports for a core without a policy. The C integer
semantics are written out:

- `cycle++` wraps modulo 2^32.
- `cpufreq_up * max_rate` is an unsigned 32-bit product, truncated by `/ 100`.
- `cycle >= cycle_up` and `num_cpus >= max_cpus` (in resume) compare after converting the `int` tunable to `unsigned`.

Behaviour that is easy to misread, as the code has it:

- A tie for the slowest core goes to the highest-numbered core, not the first one met. The `<=` at line 85 makes each later equal rate win.
- `fast_rate` is seeded with core 0's rate, so a busy core 0 blocks every downshift. With secondaries at 20/30/39 % and a 40 % down threshold, core 0 at 90 % issues nothing (`BusyCoreZeroBlocksDownshift`), while core 0 at 10 % takes core 1 down (`IdleCoreZeroAllowsDownshift`).
- Resume does not stop at `max_cpus` (see Findings).
- Start does not reset `cycle`. A failed start does not revert `enabled` (see Findings).
- Stop iterates over every id that is not online, not only over present ones. `cpu_up` refuses an id that is not present, and the model's `CpuUp` does the same.

## Model

| member | source | states |
|---|---|---|
| Tunables.Defaults | arch/arm64/hotplug/autosmp.c:49-58 | The compiled-in values are within every store's range whenever CONFIG_NR_CPUS is between 2 and 8. |
| Tunables.StoreOne | arch/arm64/hotplug/autosmp.c:238-252 | A store is accepted iff a value was parsed and it lies within the field's bounds. The `min_cpus`/`max_cpus` bounds read the other field's live value. An accepted store changes exactly the named field. A refused one changes nothing. Every accepted store keeps `1 <= min_cpus <= max_cpus <= 8` and all other ranges. |
| Tunables.StoreAll | arch/arm64/hotplug/autosmp.c:293-300 | Any sequence of stores, accepted or refused, keeps a valid record valid and keeps the core-count ordering. |
| Tunables.MinAboveMaxRejected | arch/arm64/hotplug/autosmp.c:295 | Setting `min_cpus` above the current `max_cpus` is refused. |
| Tunables.ParseEnabled | arch/arm64/hotplug/autosmp.c:271-273 | `store_enabled` accepts only 0 or 1, and only when the value differs from the current `enabled`. So an accepted write always flips the flag. |
| Decision.Threshold | arch/arm64/hotplug/autosmp.c:73-74 | Without 32-bit overflow, the threshold is the truncated percentage of `max_rate`. |
| Decision.ThresholdAtMost | arch/arm64/hotplug/autosmp.c:73-74 | With a percentage in 1..100 and no overflow, the threshold never exceeds `max_rate`. |
| Decision.ThresholdMonotone | arch/arm64/hotplug/autosmp.c:73-74 | With no overflow, a larger percentage never gives a smaller threshold. |
| Decision.ThresholdNoOverflow | arch/arm64/hotplug/autosmp.c:73-74 | The product cannot overflow while `max_rate` is at most 42949672 kHz, so the threshold is then exactly `pct * max_rate / 100` in unbounded arithmetic. |
| Decision.ScanBelow | arch/arm64/hotplug/autosmp.c:82-92 | After the ascending scan, `slow_cpu` is 0 iff no core >= 1 is online. Otherwise it is the highest-numbered core holding the minimum rate among the cores >= 1, and `slow_rate` is that rate. `fast_rate` is at least core 0's rate and at least every core that did not set a running minimum. It equals core 0's rate or one of those cores' rates. |
| Decision.Observe | arch/arm64/hotplug/autosmp.c:79-96 | `slow_rate` is the minimum over core 0 and the online cores >= 1, and one of them attains it. It may be core 0's rate while `slow_cpu` names another core. `slow_cpu` and `fast_rate` are as for the scan. |
| Decision.NextZero | arch/arm64/hotplug/autosmp.c:101 | The upshift target is the lowest offline core with id >= 1, never core 0. The result is past the end iff every core >= 1 is online. |
| Decision.Cycle | arch/arm64/hotplug/autosmp.c:62-111 | Each cycle issues at most one command. It is Up iff core 0 and every online core are above the up threshold, fewer than `max_cpus` cores are online, and the bumped counter reaches `cycle_up`. Up targets the lowest offline core >= 1. It is Down iff the up test fails, a core >= 1 is online, core 0 and every core that did not set a running minimum are below the down threshold, more than `min_cpus` cores are online, and the counter reaches `cycle_down`. Down targets the slowest secondary core (the highest id on ties), never core 0. After a command the counter is 0; otherwise it is the bumped counter. |
| Decision.CycleCounter | arch/arm64/hotplug/autosmp.c:69-111 | Away from the 2^32 wrap, the counter ends at 0 exactly when a command was issued. Otherwise it ends one higher. |
| Decision.FastestBelow | arch/arm64/hotplug/autosmp.c:80-92 | The intended `fast_rate` is the maximum of core 0's rate and every online core's rate. |
| Decision.CycleIntended | arch/arm64/hotplug/autosmp.c:82-111 | With the intended `fast_rate`, the upshift is unchanged. A downshift requires every online core to be below the down threshold. |
| Hysteresis.UpWaits | arch/arm64/hotplug/autosmp.c:69-104 | Under a steady upshift load, the cycles before the counter reaches `cycle_up` issue nothing and only count. |
| Hysteresis.UpFires | arch/arm64/hotplug/autosmp.c:98-104 | Under a steady upshift load, the cycle on which the counter reaches `cycle_up` issues the upshift and clears the counter. Its target is the lowest offline core >= 1, or past the end (no core comes up) only when every core >= 1 is already online. |
| Hysteresis.DownWaits | arch/arm64/hotplug/autosmp.c:69-110 | Under a steady downshift load, the cycles before the counter reaches `cycle_down` issue nothing and only count. |
| Hysteresis.DownFires | arch/arm64/hotplug/autosmp.c:105-110 | Under a steady downshift load, the cycle on which the counter reaches `cycle_down` takes the slowest secondary core down. |
| Hysteresis.NeverUpAtMax | arch/arm64/hotplug/autosmp.c:99 | With `max_cpus` cores online, no number of cycles ever brings a core up. |
| Hysteresis.NeverDownAtMin | arch/arm64/hotplug/autosmp.c:106 | With at most `min_cpus` cores online, no number of cycles ever takes a core down. |
| CycleScenarios.BusyCoreZeroBlocksDownshift | arch/arm64/hotplug/autosmp.c:79-111 | Rates of 90/20/30/39 % with a 40 % down threshold issue nothing, although every secondary core is below the threshold, because core 0 seeds `fast_rate`. |
| CycleScenarios.IdleCoreZeroAllowsDownshift | arch/arm64/hotplug/autosmp.c:79-111 | With the same secondary rates and core 0 at 10 %, the cycle takes core 1, the slowest secondary, down and clears the counter. |
| CycleScenarios.IdleCycleCountsTowardUpshift | arch/arm64/hotplug/autosmp.c:69-104 | The counter grows on a non-qualifying cycle: two cores at 50 % leave it at 1, and the very next cycle at 95 % and 96 % reaches `cycle_up` 2 and brings core 2 up. |
| CycleScenarios.SaturatedPairUpshifts | arch/arm64/hotplug/autosmp.c:98-104 | Two cores at 95 % and 96 % with counter 2 bring core 2 up and clear the counter. |
| CycleScenarios.FastRateMissesBusyCore | arch/arm64/hotplug/autosmp.c:85-90 | Core 2 at 75 % is taken down while core 1 runs at 100 %. |
| CycleScenarios.IntendedCycleKeepsBusyCore | arch/arm64/hotplug/autosmp.c:85-90 | On the same input, the intended cycle issues nothing. |
| Power.SuspendBelow | arch/arm64/hotplug/autosmp.c:125-128 | The loop takes down every present online core >= 1 below the bound, except the cores the kernel refuses. |
| Power.Suspend | arch/arm64/hotplug/autosmp.c:117-134 | When disabled, nothing changes. When enabled with `scroff_single_core`, only core 0 and refused cores stay online. Without `scroff_single_core`, the online set is kept. When enabled, the cycle is cancelled. Core 0's state is never changed. |
| Power.SuspendLeavesCoreZero | arch/arm64/hotplug/autosmp.c:124-129 | With no refusals, suspend leaves exactly core 0 online. |
| Power.ResumeBelow | arch/arm64/hotplug/autosmp.c:143-152 | The loop brings up nothing if the pre-loop count is at `max_cpus` or more. Otherwise it brings up every present offline core below the bound that the kernel accepts. |
| Power.Resume | arch/arm64/hotplug/autosmp.c:136-158 | When disabled, nothing changes. When enabled, a cycle is queued with `delay`. With `scroff_single_core` and fewer than `max_cpus` cores online, every present core the kernel accepts comes up, whatever `max_cpus` is. |
| Power.SuspendResumeRestoresPresent | arch/arm64/hotplug/autosmp.c:117-158 | With `max_cpus` above 1 and no refusals, suspend then resume ends with every present core online and a cycle queued. |
| Power.ResumeIntendedBelow | arch/arm64/hotplug/autosmp.c:143-152 | With the count refreshed each iteration, the loop never goes past `max_cpus`. It stops short only when every accepted present core is online. |
| Power.ResumeIntended | arch/arm64/hotplug/autosmp.c:136-158 | The intended resume restores at most `max_cpus` cores, and all the kernel accepts when fewer than that are present. |
| Power.ResumeOvershootsMaxCpus | arch/arm64/hotplug/autosmp.c:144-151 | With `max_cpus` 2 and four present cores, resume brings all four up. The intended loop stops at two. |
| Power.StopBelow | arch/arm64/hotplug/autosmp.c:223-227 | The loop brings up every offline id >= 1 below the bound that is present and accepted. |
| Power.StopRestore | arch/arm64/hotplug/autosmp.c:223-227 | Stop brings up every present offline core except core 0. With no refusals, all present cores >= 1 are online afterwards. |
| Power.StateNotifierCallback | arch/arm64/hotplug/autosmp.c:160-177 | When disabled, or on any event other than ACTIVE or SUSPEND, nothing changes. When enabled, ACTIVE yields exactly `asmp_resume`'s result, which only adds cores and queues a cycle, and SUSPEND yields exactly `asmp_suspend`'s result, which only removes cores and cancels the cycle. Core 0 stays online. |
| Lifecycle.Start | arch/arm64/hotplug/autosmp.c:183-209 | Start returns 0 iff allocation and registration succeed. A failed allocation returns -EFAULT, and a failed registration returns its own code. On success, the first cycle is queued after 30000 ms. A failure leaves no live queue. `cycle` and `notifier_call` are untouched. |
| Lifecycle.HotplugStop | arch/arm64/hotplug/autosmp.c:211-228 | Stop faults iff the workqueue is not live. Otherwise it cancels the cycle, unregisters the notifier, clears `notifier_call`, and brings present cores >= 1 back. |
| Lifecycle.StoreEnabled | arch/arm64/hotplug/autosmp.c:265-282 | An invalid or same-value write is refused with nothing changed. Enabling always leaves `enabled` set, even when start fails, and otherwise leaves the governor as start leaves it: the first cycle is queued after 30000 ms when start succeeds, and the timer is untouched when it fails. Disabling faults iff the queue is not live, and otherwise leaves the system exactly as stop leaves it, with the present cores >= 1 brought back. |
| Lifecycle.Tick | arch/arm64/hotplug/autosmp.c:62-115 | A cancelled work item does nothing. Otherwise one cycle runs, the work is re-queued with `delay`, and the counter takes the cycle's value. The online set changes exactly as the chosen command does: unchanged for no command or an upshift past the end, `cpu_up` of the chosen lowest offline core, or `cpu_down` of the chosen slowest secondary core. At most one core changes state, and core 0 never goes offline. |
| Lifecycle.Deliver | arch/arm64/hotplug/autosmp.c:160-181 | An unregistered block hears nothing. A registered block whose `notifier_call` is NULL faults. Otherwise `state_notifier_callback` runs: the online set and timer become exactly its result, nothing else changes, and core 0 stays online. |
| Lifecycle.StartKeepsCycle | arch/arm64/hotplug/autosmp.c:60 | Enabling leaves the counter at its previous value. |
| Lifecycle.FailedStartThenDisableFaults | arch/arm64/hotplug/autosmp.c:275-279 | After a failed start, `enabled` is 1 with no live queue, and the next accepted write (0) faults. |
| Lifecycle.ReenableLeavesNullNotifier | arch/arm64/hotplug/autosmp.c:218-219 | After enable, disable and enable, the next screen event calls a NULL notifier. |
| Lifecycle.StartIntended | arch/arm64/hotplug/autosmp.c:193-201 | The intended start sets `notifier_call` before registering, so a registered block is always callable. |
| Lifecycle.StoreEnabledIntended | arch/arm64/hotplug/autosmp.c:265-282 | The intended store reverts `enabled` and returns start's error when start fails: -EFAULT for a failed allocation, the registration code for a failed registration. A successful enable queues the first cycle after 30000 ms. Disabling leaves the system exactly as stop leaves it. From a consistent state, every write is defined and keeps the state consistent. |
| Lifecycle.ConsistentDeliverNeverFaults | arch/arm64/hotplug/autosmp.c:160-181 | In a consistent state, no event reaches a NULL notifier. |
| Lifecycle.StoreEnabledIntendedAll | arch/arm64/hotplug/autosmp.c:265-282 | From boot or any consistent state, any sequence of intended writes stays defined and consistent. |
| Lifecycle.ReenableIntendedDelivers | arch/arm64/hotplug/autosmp.c:193-219 | With the intended writes, enable, disable and enable reach a callable notifier. |

## Left out

- sysfs text: `show_*` and `scnprintf`, and the `sscanf` parsing. A store receives an already-parsed optional `int`.
- Platform driver, kobject and module registration (`asmp_probe`, `asmp_remove`, `asmp_init`, `asmp_exit`): lifecycle plumbing with no decision logic.
- Workqueue mechanics: reduced to a cancelled-or-queued timer with its delay, plus a flag saying whether `asmp_wq` is live. Power.Queue is this stand-in for `queue_delayed_work` (a pending item keeps its delay), not a model of the governor's own code. Jiffies conversion is not modelled.
- Concurrency between the work item and the notifier, including `get_online_cpus`/`put_online_cpus`: the model is sequential.
- `cpufreq_quick_get` and `cpufreq_quick_get_max` are inputs.
- `cpu_up` and `cpu_down` are foreign calls. Their success is an input set of refused cores, which also covers the kernel's own refusals (last online core, id not present).
- `pr_info`/`pr_err` logging.
- Lifecycle.Tick: `num_online_cpus()` is taken as the exact set size, with no 32-bit limit, because it never exceeds NR_CPUS.

## Findings

| source | as written | input that shows it | evidently intended | confidence | as-written member | corrected member |
|---|---|---|---|---|---|---|
| arch/arm64/hotplug/autosmp.c:85-90 | a core that sets a new running minimum is never compared with `fast_rate`, so the first secondary core is always skipped | cores 0, 1, 2 at 5 %, 100 %, 75 % of 2 GHz, defaults, counter 1: core 2 is taken down while core 1 runs at 100 % | `fast_rate` is the maximum rate over all sampled cores | medium, not executed | CycleScenarios.FastRateMissesBusyCore | Decision.CycleIntended |
| arch/arm64/hotplug/autosmp.c:144-151 | the online count is read once before the loop, so the `max_cpus` test inside the loop never stops it partway | `max_cpus` 2, core 0 online, cores 0-3 present: resume brings all four up | stop restoring cores once `max_cpus` are online | high, not executed | Power.ResumeOvershootsMaxCpus | Power.ResumeIntended |
| arch/arm64/hotplug/autosmp.c:275-279 | `enabled` is set before start, and start's return value is ignored | allocation fails on writing 1; the later write of 0 flushes and destroys a workqueue that does not exist | revert `enabled` and return the error (`asmp_probe` at 349-353 likewise returns start's error), so that a later write of 0 does not reach `flush_workqueue` on a queue that does not exist | high, not executed | Lifecycle.FailedStartThenDisableFaults | Lifecycle.StoreEnabledIntended |
| arch/arm64/hotplug/autosmp.c:218-219 | stop clears `notifier_call`, and start registers the same block without setting it again | write 1, 0, 1 with every call succeeding, then a screen event: the chain calls a NULL function | the notifier stays callable after a restart | medium, not executed (the state notifier's source is not part of this model) | Lifecycle.ReenableLeavesNullNotifier | Lifecycle.StartIntended |

The work item and the hysteresis lemmas use the cycle as written, because
that is what the governor runs. `Decision.CycleIntended` shares its
decision step (`Decide`) and differs only in the fast rate.

=== FILE: base.dfy ===
/**
 * C integer semantics and small wrappers shared by the autosmp model.
 *
 * The governor is kernel C: rates and the cycle counter are `unsigned int`,
 * tunables are `int`. Dafny integers are unbounded, so the 32-bit wrap-around
 * and the signed-to-unsigned conversions are written out here, once.
 */
module Base {

  /** 2^32, the modulus of C `unsigned int` arithmetic. */
  const U32Modulus: int := 0x1_0000_0000

  /** UINT_MAX */
  const UintMax: int := 0xFFFF_FFFF

  /** A C `unsigned int`. */
  type u32 = x: int | 0 <= x < U32Modulus

  /** A C `int`. */
  type i32 = x: int | -0x8000_0000 <= x < 0x8000_0000

  /** EINVAL and EFAULT, as the positive codes the kernel negates. */
  const EINVAL: int := 22
  const EFAULT: int := 14

  /** The result of an `sscanf(buf, "%d", &val)`: a value, or nothing parsed. */
  datatype Option<T> = None | Some(value: T)

  /** Unsigned 32-bit wrap-around of an arithmetic result. */
  function Wrap32(x: int): (r: u32)
    ensures 0 <= x < U32Modulus ==> r == x
    ensures (r - x) % U32Modulus == 0
  {
    x % U32Modulus
  }

  /**
   * The usual arithmetic conversion of an `int` operand to `unsigned int`
   * when it meets an unsigned operand: a non-negative value is kept, a
   * negative one becomes 2^32 + x.
   */
  function ToU32(x: i32): (r: u32)
    ensures 0 <= x ==> r == x
    ensures x < 0 ==> r == U32Modulus + x
  {
    if x < 0 then U32Modulus + x else x
  }

  /** C truth value of an `int` flag. */
  function IntOfBool(b: bool): (r: int)
    ensures 0 <= r <= 1
    ensures r != 0 <==> b
  {
    if b then 1 else 0
  }
}

=== FILE: cycle_scenarios.dfy ===
/**
 * Concrete cycles: a four-core load below the down threshold with and
 * without a busy core 0, a saturated pair, an idle cycle that still counts
 * toward the upshift, and the input that shows `fast_rate` overlooking the
 * busiest core.
 * Rates are in kHz with a 2 GHz maximum; the tunables are the defaults
 * (up 60 %, down 40 %, min 2, cycle_up and cycle_down 2) unless changed.
 */
module CycleScenarios {
  import opened Base
  import opened Tunables
  import opened Decision

  const MaxRate: u32 := 2000000

  /**
   * Four cores online at 90 %, 20 %, 30 % and 39 %, down threshold 40 %,
   * `min_cpus` 2, `cycle_down` 1: every secondary core is below the down
   * threshold, but core 0's 90 % seeds `fast_rate`, so the down test fails
   * and nothing is issued; the counter keeps counting.
   */
  lemma BusyCoreZeroBlocksDownshift()
    ensures var t := Defaults(8).(cycleDown := 1);
            var cur := map[0 := 1800000, 1 := 400000, 2 := 600000, 3 := 780000];
            Cycle(t, 1, MaxRate, cur, {0, 1, 2, 3}, 4) == Decision(NoAction, 2)
  {
    var t := Defaults(8).(cycleDown := 1);
    var cur := map[0 := 1800000, 1 := 400000, 2 := 600000, 3 := 780000];
    assert Threshold(t.cpufreqUp, MaxRate) == 1200000;
    assert Threshold(t.cpufreqDown, MaxRate) == 800000;
    assert RateOf(cur, 1) == 400000;
    assert !AllAbove({0, 1, 2, 3}, cur, 4, 1200000);
    assert !FastBelow({0, 1, 2, 3}, cur, 4, 800000);
  }

  /**
   * The same secondary rates with core 0 idling at 10 %: `fast_rate` now
   * stays below the down threshold, so core 1, the slowest secondary, is
   * taken down. Core 0 alone decides between the two outcomes.
   */
  lemma IdleCoreZeroAllowsDownshift()
    ensures var t := Defaults(8).(cycleDown := 1);
            var cur := map[0 := 200000, 1 := 400000, 2 := 600000, 3 := 780000];
            Cycle(t, 1, MaxRate, cur, {0, 1, 2, 3}, 4) == Decision(Down(1), 0)
  {
    var t := Defaults(8).(cycleDown := 1);
    var cur := map[0 := 200000, 1 := 400000, 2 := 600000, 3 := 780000];
    var online := {0, 1, 2, 3};
    assert Threshold(t.cpufreqUp, MaxRate) == 1200000;
    assert Threshold(t.cpufreqDown, MaxRate) == 800000;
    assert !AllAbove(online, cur, 4, 1200000);
    assert SetsMin(online, cur, 1);
    assert FastBelow(online, cur, 4, 800000);
    assert |online| == 4;
    assert SlowestSecondary(online, cur, 4, 1);
  }

  /**
   * Two cores online at 95 % and 96 %, `max_cpus` 4, `cycle_up` 2, counter
   * 2: the slowest rate is above the 60 % threshold, so core 2, the lowest
   * offline one, is brought up and the counter is cleared.
   */
  lemma SaturatedPairUpshifts()
    ensures var t := Defaults(4);
            var cur := map[0 := 1900000, 1 := 1920000];
            Cycle(t, 2, MaxRate, cur, {0, 1}, 4) == Decision(Up(Cpu(2)), 0)
  {
    var t := Defaults(4);
    var cur := map[0 := 1900000, 1 := 1920000];
    assert Threshold(t.cpufreqUp, MaxRate) == 1200000;
    assert AllAbove({0, 1}, cur, 4, 1200000);
    assert |{0, 1}| == 2;
    assert 2 !in {0, 1};
    assert LowestOffline({0, 1}, 4, 2);
  }

  /**
   * The counter counts every cycle, not only qualifying ones: with two
   * cores at 50 % the first cycle issues nothing but leaves the counter at
   * 1, and a single following cycle at 95 % and 96 % then reaches
   * `cycle_up` (2) and brings core 2 up at once.
   */
  lemma IdleCycleCountsTowardUpshift()
    ensures var t := Defaults(4);
            var idle := map[0 := 1000000, 1 := 1000000];
            var busy := map[0 := 1900000, 1 := 1920000];
            && Cycle(t, 0, MaxRate, idle, {0, 1}, 4) == Decision(NoAction, 1)
            && !AllAbove({0, 1}, idle, 4, Threshold(t.cpufreqUp, MaxRate))
            && Cycle(t, 1, MaxRate, busy, {0, 1}, 4) == Decision(Up(Cpu(2)), 0)
  {
    var t := Defaults(4);
    var idle := map[0 := 1000000, 1 := 1000000];
    var busy := map[0 := 1900000, 1 := 1920000];
    assert Threshold(t.cpufreqUp, MaxRate) == 1200000;
    assert Threshold(t.cpufreqDown, MaxRate) == 800000;
    assert !AllAbove({0, 1}, idle, 4, 1200000);
    assert !FastBelow({0, 1}, idle, 4, 800000);
    assert AllAbove({0, 1}, busy, 4, 1200000);
    assert |{0, 1}| == 2;
    assert LowestOffline({0, 1}, 4, 2);
  }

  /**
   * Three cores online: core 0 idles at 5 %, core 1 runs at 100 % and
   * core 2 at 75 %. Cores 1 and 2 each set a new running minimum, so
   * neither is compared with `fast_rate`, which stays at core 0's 5 %;
   * the cycle takes core 2 down although both secondaries are busy.
   */
  lemma FastRateMissesBusyCore()
    ensures var cur := map[0 := 100000, 1 := 2000000, 2 := 1500000];
            && Cycle(Defaults(8), 1, MaxRate, cur, {0, 1, 2}, 3) == Decision(Down(2), 0)
            && RateOf(cur, 1) >= Threshold(Defaults(8).cpufreqDown, MaxRate)
  {
    var cur := map[0 := 100000, 1 := 2000000, 2 := 1500000];
    var t := Defaults(8);
    assert Threshold(t.cpufreqUp, MaxRate) == 1200000;
    assert Threshold(t.cpufreqDown, MaxRate) == 800000;
    assert SetsMin({0, 1, 2}, cur, 1);
    assert SetsMin({0, 1, 2}, cur, 2);
    assert FastBelow({0, 1, 2}, cur, 3, 800000);
    assert !AllAbove({0, 1, 2}, cur, 3, 1200000);
    assert |{0, 1, 2}| == 3;
    assert SlowestSecondary({0, 1, 2}, cur, 3, 2);
  }

  /** On the same input the intended cycle sees core 1 at 100 % and waits. */
  lemma IntendedCycleKeepsBusyCore()
    ensures var cur := map[0 := 100000, 1 := 2000000, 2 := 1500000];
            CycleIntended(Defaults(8), 1, MaxRate, cur, {0, 1, 2}, 3) == Decision(NoAction, 2)
  {
    var cur := map[0 := 100000, 1 := 2000000, 2 := 1500000];
    var t := Defaults(8);
    assert Threshold(t.cpufreqUp, MaxRate) == 1200000;
    assert Threshold(t.cpufreqDown, MaxRate) == 800000;
    assert !AllAbove({0, 1, 2}, cur, 3, 1200000);
    assert !AllBelow({0, 1, 2}, cur, 3, 800000);
  }
}

=== FILE: decision.dfy ===
/**
 * One sampling-and-decision cycle of the autosmp governor (`asmp_work_fn`).
 *
 * A cycle bumps the hysteresis counter, derives the up and down thresholds
 * from core 0's maximum frequency, scans the online cores in ascending id
 * order for the slowest and the fastest rate, and then issues at most one
 * hotplug command: bring the lowest offline core up, or take the slowest
 * secondary core down. Frequencies are inputs: `cur` maps a core to what
 * `cpufreq_quick_get` reports for it, and a core without an entry reads 0,
 * as `cpufreq_quick_get` does for a core with no policy.
 */
module Decision {
  import opened Base
  import opened Tunables

  /** `cpufreq_quick_get(c)` */
  function RateOf(cur: map<nat, u32>, c: nat): u32 {
    if c in cur then cur[c] else 0
  }

  // ---------------------------------------------------------------------
  // Thresholds

  /**
   * `pct * max_rate / 100` in C: the `int` percentage meets an `unsigned`
   * rate, so the product is an unsigned 32-bit product and the division
   * truncates. Without overflow it is the truncated percentage of the rate.
   */
  function Threshold(pct: i32, maxRate: u32): (r: u32)
    ensures 0 <= pct && pct * maxRate < U32Modulus ==> r * 100 <= pct * maxRate < r * 100 + 100
  {
    Wrap32(ToU32(pct) * maxRate) / 100
  }

  /** A percentage of at most 100 never yields a threshold above the rate. */
  lemma ThresholdAtMost(pct: i32, maxRate: u32)
    requires 1 <= pct <= 100
    requires pct * maxRate < U32Modulus
    ensures Threshold(pct, maxRate) <= maxRate
  {
    var r := Threshold(pct, maxRate);
    MulLeq(pct, 100, maxRate);
    assert r * 100 <= 100 * maxRate;
  }

  /** A larger percentage never yields a smaller threshold. */
  lemma ThresholdMonotone(p: i32, q: i32, maxRate: u32)
    requires 1 <= p <= q <= 100
    requires q * maxRate < U32Modulus
    ensures Threshold(p, maxRate) <= Threshold(q, maxRate)
  {
    var xp, xq := p * maxRate, q * maxRate;
    assert xp <= xq by { MulLeq(p, q, maxRate); }
    DivLeq(xp, xq, Threshold(p, maxRate), Threshold(q, maxRate));
  }

  /**
   * The product cannot overflow while the maximum rate stays below
   * 42949673 (in kHz, about 42.9 GHz), whatever admissible percentage, so
   * the threshold is then exactly the truncated percentage of the rate.
   */
  lemma ThresholdNoOverflow(pct: i32, maxRate: u32)
    requires 1 <= pct <= 100
    requires maxRate <= 42949672
    ensures pct * maxRate < U32Modulus
    ensures Threshold(pct, maxRate) == pct * maxRate / 100
  {
    MulLeq(pct, 100, maxRate);
  }

  /** Two truncated hundredths keep the order of their numerators. */
  lemma DivLeq(x: int, y: int, rx: int, ry: int)
    requires x <= y
    requires rx * 100 <= x && y < ry * 100 + 100
    ensures rx <= ry
  {
  }

  /** Multiplying by a non-negative factor keeps an order. */
  lemma MulLeq(a: int, b: int, m: nat)
    requires a <= b
    ensures a * m <= b * m
  {
    assert b * m - a * m == (b - a) * m;
  }

  // ---------------------------------------------------------------------
  // The scan over the online cores

  /**
   * Whether the ascending scan, on reaching core `c`, finds its rate at or
   * below the running minimum: no earlier online core >= 1 is slower.
   */
  predicate SetsMin(online: set<nat>, cur: map<nat, u32>, c: nat) {
    forall d :: 1 <= d < c && d in online ==> RateOf(cur, c) <= RateOf(cur, d)
  }

  /** Some core other than core 0 is online. */
  predicate SomeSecondary(online: set<nat>, nrIds: nat) {
    exists c :: 1 <= c < nrIds && c in online
  }

  /**
   * `c` is the highest-numbered online core >= 1 whose rate is the minimum
   * over the online cores >= 1.
   */
  predicate SlowestSecondary(online: set<nat>, cur: map<nat, u32>, nrIds: nat, c: nat) {
    && 1 <= c < nrIds && c in online
    && (forall d :: 1 <= d < nrIds && d in online ==> RateOf(cur, c) <= RateOf(cur, d))
    && (forall d :: c < d < nrIds && d in online ==> RateOf(cur, c) < RateOf(cur, d))
  }

  /** Core 0 and every online core >= 1 run above `bound`. */
  predicate AllAbove(online: set<nat>, cur: map<nat, u32>, nrIds: nat, bound: int) {
    && RateOf(cur, 0) > bound
    && forall c :: 1 <= c < nrIds && c in online ==> RateOf(cur, c) > bound
  }

  /**
   * Core 0 and every online core >= 1 that did NOT set a running minimum
   * run below `bound`. The cores that did set one are not looked at.
   */
  predicate FastBelow(online: set<nat>, cur: map<nat, u32>, nrIds: nat, bound: int) {
    && RateOf(cur, 0) < bound
    && forall c :: 1 <= c < nrIds && c in online && !SetsMin(online, cur, c) ==> RateOf(cur, c) < bound
  }

  /** The scan's locals: `slow_cpu`, `slow_rate`, `fast_rate`. */
  datatype Scan = Scan(slowCpu: nat, slowRate: u32, fastRate: u32)

  /** One pass of the loop body for an online core `c > 0`. */
  function ScanStep(s: Scan, c: nat, rate: u32): Scan {
    if rate <= s.slowRate then Scan(c, rate, s.fastRate)
    else if rate > s.fastRate then Scan(s.slowCpu, s.slowRate, rate)
    else s
  }

  /**
   * The scan after visiting the ids below `k` in ascending order, starting
   * from `slow_cpu = 0`, `slow_rate = UINT_MAX`, `fast_rate = cpu0_rate`.
   * The `<=` test hands ties to the later core, and a core that lowers the
   * running minimum is never compared with `fast_rate`.
   */
  function ScanBelow(online: set<nat>, cur: map<nat, u32>, cpu0Rate: u32, k: nat): (s: Scan)
    ensures s.slowCpu == 0 <==> !SomeSecondary(online, k)
    ensures s.slowCpu == 0 ==> s.slowRate == UintMax
    ensures s.slowCpu != 0 ==> SlowestSecondary(online, cur, k, s.slowCpu) && s.slowRate == RateOf(cur, s.slowCpu)
    ensures s.fastRate >= cpu0Rate
    ensures forall c :: 1 <= c < k && c in online && !SetsMin(online, cur, c) ==> RateOf(cur, c) <= s.fastRate
    ensures s.fastRate == cpu0Rate
            || exists c :: 1 <= c < k && c in online && !SetsMin(online, cur, c) && s.fastRate == RateOf(cur, c)
    decreases k
  {
    if k == 0 then Scan(0, UintMax, cpu0Rate)
    else
      var s := ScanBelow(online, cur, cpu0Rate, k - 1);
      var c := k - 1;
      if c > 0 && c in online then ScanStep(s, c, RateOf(cur, c)) else s
  }

  /**
   * The whole scan (lines 79-96): `slow_rate` is the minimum over core 0
   * and the online cores >= 1; `slow_cpu` is the highest-numbered core
   * attaining the minimum among the cores >= 1 (0 when there is none), so
   * `slow_rate` may be core 0's rate while `slow_cpu` names another core;
   * `fast_rate` is the largest of core 0's rate and the rates of the cores
   * that did not set a running minimum.
   */
  function Observe(online: set<nat>, cur: map<nat, u32>, nrIds: nat): (s: Scan)
    ensures s.slowCpu == 0 <==> !SomeSecondary(online, nrIds)
    ensures s.slowCpu != 0 ==> SlowestSecondary(online, cur, nrIds, s.slowCpu)
    ensures s.slowRate <= RateOf(cur, 0)
    ensures forall c :: 1 <= c < nrIds && c in online ==> s.slowRate <= RateOf(cur, c)
    ensures s.slowRate == RateOf(cur, 0) || (s.slowCpu != 0 && s.slowRate == RateOf(cur, s.slowCpu))
    ensures s.fastRate >= RateOf(cur, 0)
    ensures forall c :: 1 <= c < nrIds && c in online && !SetsMin(online, cur, c) ==> RateOf(cur, c) <= s.fastRate
    ensures s.fastRate == RateOf(cur, 0)
            || exists c :: 1 <= c < nrIds && c in online && !SetsMin(online, cur, c) && s.fastRate == RateOf(cur, c)
  {
    var cpu0Rate := RateOf(cur, 0);
    var s := ScanBelow(online, cur, cpu0Rate, nrIds);
    if cpu0Rate < s.slowRate then s.(slowRate := cpu0Rate) else s
  }

  // ---------------------------------------------------------------------
  // The upshift target

  /** What `cpumask_next_zero` returns: a core id, or past the end. */
  datatype Target = Cpu(id: nat) | PastEnd

  /** `c` is the lowest-numbered offline core with id >= 1. */
  predicate LowestOffline(online: set<nat>, nrIds: nat, c: nat) {
    && 1 <= c < nrIds && c !in online
    && forall d :: 1 <= d < c ==> d in online
  }

  /** The first id in `[i, nrIds)` that is not online. */
  function NextZeroFrom(online: set<nat>, i: nat, nrIds: nat): (r: Target)
    ensures r.Cpu? ==> i <= r.id < nrIds && r.id !in online && forall d :: i <= d < r.id ==> d in online
    ensures r.PastEnd? ==> forall d :: i <= d < nrIds ==> d in online
    decreases nrIds - i
  {
    if i >= nrIds then PastEnd
    else if i !in online then Cpu(i)
    else NextZeroFrom(online, i + 1, nrIds)
  }

  /**
   * `cpumask_next_zero(0, cpu_online_mask)`: the search starts after
   * index 0, so core 0 is never the answer; with every core >= 1 online
   * the result is past the end.
   */
  function NextZero(online: set<nat>, nrIds: nat): (r: Target)
    ensures r.Cpu? ==> LowestOffline(online, nrIds, r.id)
    ensures r.PastEnd? <==> forall d :: 1 <= d < nrIds ==> d in online
  {
    NextZeroFrom(online, 1, nrIds)
  }

  // ---------------------------------------------------------------------
  // The decision

  datatype Action = NoAction | Up(target: Target) | Down(cpu: nat)

  /** The command a cycle issues and the counter it leaves behind. */
  datatype Decision = Decision(action: Action, cycle: u32)

  /**
   * Lines 98-111, given the bumped counter, the online count, the
   * thresholds and the scan: upshift and downshift are alternatives, and
   * either one clears the counter whether or not the command succeeds.
   */
  function Decide(t: Tunables, bumped: u32, numCpus: int, upRate: u32, downRate: u32,
                  s: Scan, target: Target): Decision
  {
    if s.slowRate > upRate then
      if numCpus < t.maxCpus && bumped >= ToU32(t.cycleUp) then Decision(Up(target), 0)
      else Decision(NoAction, bumped)
    else if s.slowCpu != 0 && s.fastRate < downRate then
      if numCpus > t.minCpus && bumped >= ToU32(t.cycleDown) then Decision(Down(s.slowCpu), 0)
      else Decision(NoAction, bumped)
    else Decision(NoAction, bumped)
  }

  /**
   * `asmp_work_fn`: at most one command per cycle. An upshift needs every
   * sampled core above the up threshold, room below `max_cpus`, and
   * `cycle_up` cycles; it targets the lowest offline core >= 1. A
   * downshift needs the up test to fail, a secondary core online, core 0
   * and every core that did not set a running minimum below the down
   * threshold, more than `min_cpus` online and `cycle_down` cycles; it
   * targets the slowest secondary core, so core 0 is never taken down.
   * The counter is 0 after a command and one more (mod 2^32) otherwise.
   */
  function Cycle(t: Tunables, cycle: u32, maxRate: u32, cur: map<nat, u32>,
                 online: set<nat>, nrIds: nat): (d: Decision)
    requires forall c :: c in online ==> c < nrIds
    ensures d.action.NoAction? ==> d.cycle == Wrap32(cycle + 1)
    ensures !d.action.NoAction? ==> d.cycle == 0
    ensures d.action.Up? <==>
              && AllAbove(online, cur, nrIds, Threshold(t.cpufreqUp, maxRate))
              && |online| < t.maxCpus
              && Wrap32(cycle + 1) >= ToU32(t.cycleUp)
    ensures d.action.Up? && d.action.target.Cpu? ==> LowestOffline(online, nrIds, d.action.target.id)
    ensures d.action.Up? && d.action.target.PastEnd? ==> forall c :: 1 <= c < nrIds ==> c in online
    ensures d.action.Down? <==>
              && !AllAbove(online, cur, nrIds, Threshold(t.cpufreqUp, maxRate))
              && SomeSecondary(online, nrIds)
              && FastBelow(online, cur, nrIds, Threshold(t.cpufreqDown, maxRate))
              && |online| > t.minCpus
              && Wrap32(cycle + 1) >= ToU32(t.cycleDown)
    ensures d.action.Down? ==> SlowestSecondary(online, cur, nrIds, d.action.cpu)
  {
    var bumped := Wrap32(cycle + 1);
    var upRate := Threshold(t.cpufreqUp, maxRate);
    var downRate := Threshold(t.cpufreqDown, maxRate);
    var s := Observe(online, cur, nrIds);
    Decide(t, bumped, |online|, upRate, downRate, s, NextZero(online, nrIds))
  }

  /**
   * Away from the wrap of the counter, a cycle ends with the counter at 0
   * exactly when it issued a command, and one higher otherwise.
   */
  lemma CycleCounter(t: Tunables, cycle: u32, maxRate: u32, cur: map<nat, u32>,
                     online: set<nat>, nrIds: nat)
    requires forall c :: c in online ==> c < nrIds
    requires cycle < UintMax
    ensures var d := Cycle(t, cycle, maxRate, cur, online, nrIds);
            (d.cycle == 0 <==> !d.action.NoAction?) && (d.action.NoAction? ==> d.cycle == cycle + 1)
  {
  }

  // ---------------------------------------------------------------------
  // The intended fast rate

  /** Core 0 and every online core >= 1 run below `bound`. */
  predicate AllBelow(online: set<nat>, cur: map<nat, u32>, nrIds: nat, bound: int) {
    && RateOf(cur, 0) < bound
    && forall c :: 1 <= c < nrIds && c in online ==> RateOf(cur, c) < bound
  }

  /** The largest of `cpu0Rate` and the rates of the online ids in `[1, k)`. */
  function FastestBelow(online: set<nat>, cur: map<nat, u32>, cpu0Rate: u32, k: nat): (r: u32)
    ensures r >= cpu0Rate
    ensures forall c :: 1 <= c < k && c in online ==> RateOf(cur, c) <= r
    ensures r == cpu0Rate || exists c :: 1 <= c < k && c in online && r == RateOf(cur, c)
    decreases k
  {
    if k == 0 then cpu0Rate
    else
      var r := FastestBelow(online, cur, cpu0Rate, k - 1);
      var c := k - 1;
      if c > 0 && c in online && RateOf(cur, c) > r then RateOf(cur, c) else r
  }

  /**
   * The cycle with `fast_rate` tracked over every sampled core (the
   * `else` before the `fast_rate` test dropped): a downshift then needs
   * every online core below the down threshold, the busiest included.
   */
  function CycleIntended(t: Tunables, cycle: u32, maxRate: u32, cur: map<nat, u32>,
                         online: set<nat>, nrIds: nat): (d: Decision)
    requires forall c :: c in online ==> c < nrIds
    ensures d.action.NoAction? ==> d.cycle == Wrap32(cycle + 1)
    ensures !d.action.NoAction? ==> d.cycle == 0
    ensures d.action.Up? <==> Cycle(t, cycle, maxRate, cur, online, nrIds).action.Up?
    ensures d.action.Down? <==>
              && !AllAbove(online, cur, nrIds, Threshold(t.cpufreqUp, maxRate))
              && SomeSecondary(online, nrIds)
              && AllBelow(online, cur, nrIds, Threshold(t.cpufreqDown, maxRate))
              && |online| > t.minCpus
              && Wrap32(cycle + 1) >= ToU32(t.cycleDown)
    ensures d.action.Down? ==> SlowestSecondary(online, cur, nrIds, d.action.cpu)
  {
    var bumped := Wrap32(cycle + 1);
    var upRate := Threshold(t.cpufreqUp, maxRate);
    var downRate := Threshold(t.cpufreqDown, maxRate);
    var s := Observe(online, cur, nrIds);
    var fast := FastestBelow(online, cur, RateOf(cur, 0), nrIds);
    Decide(t, bumped, |online|, upRate, downRate, s.(fastRate := fast), NextZero(online, nrIds))
  }
}

=== FILE: hotplug.dfy ===
/**
 * The CPU topology the governor reads and the two hotplug commands it
 * issues. `cpu_up` and `cpu_down` are foreign calls; their outcome is an
 * input: `fails` holds the cores whose command the kernel refuses.
 */
module Hotplug {

  /** Core ids below `nrIds` (nr_cpu_ids); online cores are present. */
  datatype Topology = Topology(nrIds: nat, present: set<nat>)

  predicate WellFormed(topo: Topology, online: set<nat>) {
    && (forall c :: c in topo.present ==> c < topo.nrIds)
    && online <= topo.present
  }

  /**
   * `cpu_up(c)`: a present core the kernel does not refuse comes online;
   * any other request leaves the online set as it was.
   */
  function CpuUp(topo: Topology, fails: set<nat>, online: set<nat>, c: nat): (r: set<nat>)
    ensures online <= r <= online + {c}
    ensures WellFormed(topo, online) ==> WellFormed(topo, r)
  {
    if c in topo.present && c !in fails then online + {c} else online
  }

  /** `cpu_down(c)`: the core leaves the online set unless the kernel refuses. */
  function CpuDown(fails: set<nat>, online: set<nat>, c: nat): (r: set<nat>)
    ensures online - {c} <= r <= online
  {
    if c in fails then online else online - {c}
  }
}

=== FILE: hysteresis.dfy ===
/**
 * Repeated decision cycles under a steady load.
 *
 * The cycle counter is the governor's hysteresis: it grows on every cycle
 * and is cleared only by a command, so a command is issued only once
 * `cycle_up` (or `cycle_down`) cycles have passed since the last one,
 * whatever the load was in the cycles between. The lemmas here run the
 * cycle again and again with the same frequencies and online set, as
 * happens while nothing issues a command, and stop at the first command.
 */
module Hysteresis {
  import opened Base
  import opened Tunables
  import opened Decision

  /** The inputs a cycle samples, held steady across the run. */
  datatype Load = Load(maxRate: u32, cur: map<nat, u32>, online: set<nat>, nrIds: nat)

  predicate InRange(l: Load) {
    forall c :: c in l.online ==> c < l.nrIds
  }

  /**
   * The outcome of `k` work-function runs starting from counter `c`: the
   * first command issued, or no command with the counter reached.
   */
  function Run(t: Tunables, l: Load, c: u32, k: nat): Decision
    requires InRange(l)
    decreases k
  {
    if k == 0 then Decision(NoAction, c)
    else
      var prev := Run(t, l, c, k - 1);
      if !prev.action.NoAction? then prev
      else Cycle(t, prev.cycle, l.maxRate, l.cur, l.online, l.nrIds)
  }

  /** The sampled load would justify an upshift. */
  predicate UpLoad(t: Tunables, l: Load) {
    && AllAbove(l.online, l.cur, l.nrIds, Threshold(t.cpufreqUp, l.maxRate))
    && |l.online| < t.maxCpus
  }

  /** The sampled load would justify a downshift. */
  predicate DownLoad(t: Tunables, l: Load) {
    && !AllAbove(l.online, l.cur, l.nrIds, Threshold(t.cpufreqUp, l.maxRate))
    && SomeSecondary(l.online, l.nrIds)
    && FastBelow(l.online, l.cur, l.nrIds, Threshold(t.cpufreqDown, l.maxRate))
    && |l.online| > t.minCpus
  }

  /** Before the counter reaches `cycle_up`, an upshift load only counts. */
  lemma {:induction false} UpWaits(t: Tunables, l: Load, c: u32, k: nat)
    requires InRange(l) && UpLoad(t, l)
    requires 0 <= t.cycleUp && c + k < t.cycleUp
    ensures Run(t, l, c, k) == Decision(NoAction, c + k)
  {
    if k > 0 {
      UpWaits(t, l, c, k - 1);
    }
  }

  /**
   * Under a steady upshift load, the cycle on which the counter reaches
   * `cycle_up` issues the upshift and clears the counter. Its target is the
   * lowest offline core >= 1, or past the end when every core >= 1 is
   * already online, in which case no core comes up.
   */
  lemma UpFires(t: Tunables, l: Load, c: u32)
    requires InRange(l) && UpLoad(t, l)
    requires 0 <= c < t.cycleUp
    ensures Run(t, l, c, t.cycleUp - c).action.Up?
    ensures Run(t, l, c, t.cycleUp - c).cycle == 0
    ensures var a := Run(t, l, c, t.cycleUp - c).action;
            a.Up? && a.target.Cpu? ==> LowestOffline(l.online, l.nrIds, a.target.id)
    ensures var a := Run(t, l, c, t.cycleUp - c).action;
            a.Up? && a.target.PastEnd? ==> forall d :: 1 <= d < l.nrIds ==> d in l.online
  {
    UpWaits(t, l, c, t.cycleUp - c - 1);
  }

  /** Before the counter reaches `cycle_down`, a downshift load only counts. */
  lemma {:induction false} DownWaits(t: Tunables, l: Load, c: u32, k: nat)
    requires InRange(l) && DownLoad(t, l)
    requires 0 <= t.cycleDown && c + k < t.cycleDown
    ensures Run(t, l, c, k) == Decision(NoAction, c + k)
  {
    if k > 0 {
      DownWaits(t, l, c, k - 1);
    }
  }

  /**
   * Under a steady downshift load, the cycle on which the counter reaches
   * `cycle_down` takes the slowest secondary core down.
   */
  lemma DownFires(t: Tunables, l: Load, c: u32)
    requires InRange(l) && DownLoad(t, l)
    requires 0 <= c < t.cycleDown
    ensures Run(t, l, c, t.cycleDown - c).action.Down?
    ensures SlowestSecondary(l.online, l.cur, l.nrIds, Run(t, l, c, t.cycleDown - c).action.cpu)
  {
    DownWaits(t, l, c, t.cycleDown - c - 1);
  }

  /**
   * With `max_cpus` cores already online no run ever brings a core up,
   * however long the counter grows.
   */
  lemma {:induction false} NeverUpAtMax(t: Tunables, l: Load, c: u32, k: nat)
    requires InRange(l) && |l.online| >= t.maxCpus
    ensures !Run(t, l, c, k).action.Up?
  {
    if k > 0 {
      NeverUpAtMax(t, l, c, k - 1);
    }
  }

  /** With only `min_cpus` cores online no run ever takes a core down. */
  lemma {:induction false} NeverDownAtMin(t: Tunables, l: Load, c: u32, k: nat)
    requires InRange(l) && |l.online| <= t.minCpus
    ensures !Run(t, l, c, k).action.Down?
  {
    if k > 0 {
      NeverDownAtMin(t, l, c, k - 1);
    }
  }
}

=== FILE: lifecycle.dfy ===
/**
 * Enabling and disabling the governor, the periodic work, and event
 * delivery through the state notifier.
 *
 * Beyond the online set, the governor's global state is reduced to a few
 * facts: `enabled`, the `cycle` counter, the work timer, whether the
 * workqueue `asmp_wq` is a live queue, whether the notifier block is
 * registered, and whether its `notifier_call` is set. Touching a dead
 * workqueue or calling a NULL notifier is undefined behaviour in the
 * kernel; the model reports it as `Fault`.
 */
module Lifecycle {
  import opened Base
  import opened Tunables
  import opened Hotplug
  import opened Decision
  import opened Power

  /** HOTPLUG_INIT_DELAY, the first cycle's delay after a start, in ms. */
  const HotplugInitDelay: int := 30000

  datatype Governor = Governor(
    enabled: bool,
    cycle: u32,
    timer: Timer,
    queue: bool,
    registered: bool,
    callback: bool)

  /** The state at boot: disabled, counter 0, notifier_call set. */
  const Boot: Governor := Governor(false, 0, Cancelled, false, false, true)

  datatype System = System(gov: Governor, online: set<nat>)

  /** What the foreign calls of one operation report. */
  datatype Platform = Platform(
    topo: Topology,
    fails: set<nat>,
    allocOk: bool,
    registerRet: i32)

  /** An operation's value, or undefined behaviour in the kernel. */
  datatype Outcome<T> = Ok(value: T) | Fault

  /** The reply of a sysfs store: `count`, or a negated error code. */
  datatype Reply = Accepted | Rejected(errno: int)

  datatype Written = Written(reply: Reply, sys: System)

  // ---------------------------------------------------------------------
  // Start and stop

  datatype Started = Started(ret: int, gov: Governor)

  /**
   * `asmp_hotplug_start`: a failed allocation returns -EFAULT, a failed
   * registration returns its code and destroys the fresh queue; success
   * registers the notifier and queues the first cycle after the initial
   * delay. Neither `cycle` nor `notifier_call` is touched.
   */
  function Start(g: Governor, allocOk: bool, registerRet: i32): (r: Started)
    ensures r.ret == 0 <==> allocOk && registerRet == 0
    ensures !allocOk ==> r.ret == -EFAULT
    ensures allocOk && registerRet != 0 ==> r.ret == registerRet
    ensures r.ret == 0 ==> r.gov.queue && r.gov.registered && r.gov.timer == Queued(HotplugInitDelay)
    ensures r.ret != 0 ==> !r.gov.queue && r.gov.registered == g.registered && r.gov.timer == g.timer
    ensures r.gov.cycle == g.cycle && r.gov.enabled == g.enabled && r.gov.callback == g.callback
  {
    if !allocOk then Started(-EFAULT, g.(queue := false))
    else if registerRet != 0 then Started(registerRet, g.(queue := false))
    else Started(0, g.(queue := true, registered := true, timer := Queued(HotplugInitDelay)))
  }

  /**
   * `asmp_hotplug_stop`: flushing a queue that is not live faults;
   * otherwise the work is cancelled, the notifier unregistered and its
   * `notifier_call` cleared, the queue destroyed, and every present core
   * but core 0 brought back (unless refused).
   */
  function HotplugStop(s: System, p: Platform): (r: Outcome<System>)
    requires WellFormed(p.topo, s.online)
    ensures r.Fault? <==> !s.gov.queue
    ensures r.Ok? ==> && !r.value.gov.queue && !r.value.gov.registered && !r.value.gov.callback
                      && r.value.gov.timer == Cancelled
                      && r.value.gov.enabled == s.gov.enabled && r.value.gov.cycle == s.gov.cycle
    ensures r.Ok? ==> forall c :: c in r.value.online <==>
                        c in s.online || (c != 0 && c in p.topo.present && c !in p.fails)
    ensures r.Ok? ==> WellFormed(p.topo, r.value.online)
  {
    if !s.gov.queue then Fault
    else
      var g := s.gov.(timer := Cancelled, registered := false, callback := false, queue := false);
      Ok(System(g, StopRestore(p.topo, p.fails, s.online)))
  }

  /**
   * `store_enabled`: a value that is unparsable, outside {0, 1} or equal
   * to the current `enabled` is refused with nothing changed. Otherwise
   * `enabled` takes the value BEFORE start or stop runs, and the result of
   * start is ignored: a failed start still leaves the governor enabled.
   */
  function StoreEnabled(s: System, parsed: Option<i32>, p: Platform): (r: Outcome<Written>)
    requires WellFormed(p.topo, s.online)
    ensures ParseEnabled(s.gov.enabled, parsed).None? ==> r == Ok(Written(Rejected(-EINVAL), s))
    ensures ParseEnabled(s.gov.enabled, parsed) == Some(true) ==>
              && r.Ok? && r.value.reply == Accepted && r.value.sys.gov.enabled
              && r.value.sys.online == s.online && r.value.sys.gov.cycle == s.gov.cycle
              && (r.value.sys.gov.queue <==> p.allocOk && p.registerRet == 0)
    ensures ParseEnabled(s.gov.enabled, parsed) == Some(false) ==>
              (r.Fault? <==> !s.gov.queue)
              && (r.Ok? ==> r.value.reply == Accepted && !r.value.sys.gov.enabled)
    ensures ParseEnabled(s.gov.enabled, parsed) == Some(true) ==>
              r == Ok(Written(Accepted, System(Start(s.gov.(enabled := true), p.allocOk, p.registerRet).gov, s.online)))
    ensures ParseEnabled(s.gov.enabled, parsed) == Some(true) ==>
              r.Ok? && (r.value.sys.gov.timer == if p.allocOk && p.registerRet == 0
                                                 then Queued(HotplugInitDelay) else s.gov.timer)
    ensures ParseEnabled(s.gov.enabled, parsed) == Some(false) ==>
              var h := HotplugStop(System(s.gov.(enabled := false), s.online), p);
              (h.Fault? ==> r.Fault?) && (h.Ok? ==> r == Ok(Written(Accepted, h.value)))
  {
    match ParseEnabled(s.gov.enabled, parsed)
    case None => Ok(Written(Rejected(-EINVAL), s))
    case Some(on) =>
      if on then
        var st := Start(s.gov.(enabled := true), p.allocOk, p.registerRet);
        Ok(Written(Accepted, System(st.gov, s.online)))
      else
        match HotplugStop(System(s.gov.(enabled := false), s.online), p)
        case Fault => Fault
        case Ok(sys) => Ok(Written(Accepted, sys))
  }

  // ---------------------------------------------------------------------
  // The periodic work and the notifier

  /**
   * The work item firing: nothing happens while it is not queued;
   * otherwise one decision cycle runs, its command is issued (a command
   * the kernel refuses, or an upshift with no target, changes nothing),
   * the counter is updated and the work re-queued with `delay`. At most
   * one core changes state and core 0 never goes offline.
   */
  function Tick(s: System, t: Tunables, maxRate: u32, cur: map<nat, u32>, p: Platform): (r: System)
    requires WellFormed(p.topo, s.online)
    ensures s.gov.timer.Cancelled? ==> r == s
    ensures s.gov.timer.Queued? ==> r.gov == s.gov.(timer := Queued(t.delay), cycle := r.gov.cycle)
    ensures s.gov.timer.Queued? ==>
              var d := Cycle(t, s.gov.cycle, maxRate, cur, s.online, p.topo.nrIds);
              && r.gov.cycle == d.cycle
              && ((d.action.NoAction? || d.action == Up(PastEnd)) ==> r.online == s.online)
              && (d.action.Up? && d.action.target.Cpu? ==>
                    r.online == CpuUp(p.topo, p.fails, s.online, d.action.target.id))
              && (d.action.Down? ==> r.online == CpuDown(p.fails, s.online, d.action.cpu))
    ensures r.online == s.online
            || (exists c :: c != 0 && c !in s.online && r.online == s.online + {c})
            || (exists c :: c != 0 && c in s.online && r.online == s.online - {c})
    ensures 0 in s.online ==> 0 in r.online
    ensures WellFormed(p.topo, r.online)
  {
    if s.gov.timer.Cancelled? then s
    else
      var d := Cycle(t, s.gov.cycle, maxRate, cur, s.online, p.topo.nrIds);
      var online :=
        match d.action
        case NoAction => s.online
        case Up(Cpu(c)) => CpuUp(p.topo, p.fails, s.online, c)
        case Up(PastEnd) => s.online
        case Down(c) => CpuDown(p.fails, s.online, c);
      System(s.gov.(timer := Queued(t.delay), cycle := d.cycle), online)
  }

  /**
   * The state notifier delivering an event: an unregistered block hears
   * nothing; a registered block whose `notifier_call` is NULL faults;
   * otherwise `state_notifier_callback` runs.
   */
  function Deliver(s: System, event: Event, t: Tunables, p: Platform): (r: Outcome<System>)
    requires WellFormed(p.topo, s.online)
    ensures !s.gov.registered ==> r == Ok(s)
    ensures r.Fault? <==> s.gov.registered && !s.gov.callback
    ensures r.Ok? && !s.gov.enabled ==> r.value == s
    ensures r.Ok? ==> (0 in s.online ==> 0 in r.value.online) && WellFormed(p.topo, r.value.online)
    ensures r.Ok? ==> r.value.gov == s.gov.(timer := r.value.gov.timer)
    ensures s.gov.registered && s.gov.callback ==>
              var tr := StateNotifierCallback(s.gov.enabled, event, t, p.topo, p.fails, s.online, s.gov.timer);
              r.Ok? && r.value.online == tr.online && r.value.gov.timer == tr.timer
  {
    if !s.gov.registered then Ok(s)
    else if !s.gov.callback then Fault
    else
      var tr := StateNotifierCallback(s.gov.enabled, event, t, p.topo, p.fails, s.online, s.gov.timer);
      Ok(System(s.gov.(timer := tr.timer), tr.online))
  }

  // ---------------------------------------------------------------------
  // What the code as written allows

  /** A start does not clear the counter: it carries over from before the stop. */
  lemma StartKeepsCycle(s: System, p: Platform)
    requires WellFormed(p.topo, s.online) && !s.gov.enabled
    ensures var r := StoreEnabled(s, Some(1), p);
            r.Ok? && r.value.sys.gov.cycle == s.gov.cycle
  {
  }

  /**
   * Enabling with a start that fails leaves `enabled` at 1 with no live
   * queue; the only accepted write after that, 0, flushes the dead queue.
   */
  lemma FailedStartThenDisableFaults(s: System, p: Platform, p': Platform)
    requires WellFormed(p.topo, s.online) && !s.gov.enabled
    requires !p.allocOk || p.registerRet != 0
    requires p'.topo == p.topo
    ensures var r := StoreEnabled(s, Some(1), p);
            && r.Ok? && r.value.sys.gov.enabled && !r.value.sys.gov.queue
            && StoreEnabled(r.value.sys, Some(0), p') == Fault
  {
  }

  /**
   * Enable, disable, enable again, all succeeding: the stop cleared
   * `notifier_call` and the second start registered the block without it,
   * so the next screen event calls a NULL notifier.
   */
  lemma ReenableLeavesNullNotifier(online: set<nat>, p: Platform, t: Tunables, event: Event)
    requires WellFormed(p.topo, online)
    requires p.allocOk && p.registerRet == 0
    ensures var s0 := System(Boot, online);
            var r1 := StoreEnabled(s0, Some(1), p);
            && r1.Ok?
            && var r2 := StoreEnabled(r1.value.sys, Some(0), p);
            && r2.Ok?
            && WellFormed(p.topo, r2.value.sys.online)
            && var r3 := StoreEnabled(r2.value.sys, Some(1), p);
            && r3.Ok? && r3.value.sys.gov.enabled
            && WellFormed(p.topo, r3.value.sys.online)
            && Deliver(r3.value.sys, event, t, p) == Fault
  {
    var s0 := System(Boot, online);
    var r1 := StoreEnabled(s0, Some(1), p);
    var r2 := StoreEnabled(r1.value.sys, Some(0), p);
    var r3 := StoreEnabled(r2.value.sys, Some(1), p);
    assert r3.value.sys.gov.registered && !r3.value.sys.gov.callback;
  }

  // ---------------------------------------------------------------------
  // The evidently intended lifecycle

  /** `enabled` agrees with a live queue and a registered notifier, which is callable. */
  predicate Consistent(g: Governor) {
    && (g.enabled <==> g.queue)
    && (g.enabled <==> g.registered)
    && (g.registered ==> g.callback)
  }

  /** `asmp_hotplug_start` that sets `notifier_call` before registering. */
  function StartIntended(g: Governor, allocOk: bool, registerRet: i32): (r: Started)
    ensures r.ret == 0 <==> allocOk && registerRet == 0
    ensures r.ret == 0 ==> r.gov.queue && r.gov.registered && r.gov.callback
    ensures r.ret != 0 ==> !r.gov.queue && r.gov.registered == g.registered
    ensures r.gov.registered ==> r.gov.callback
    ensures r.gov.cycle == g.cycle && r.gov.enabled == g.enabled
  {
    Start(g.(callback := true), allocOk, registerRet)
  }

  /**
   * `store_enabled` that restores `enabled` and returns the error when the
   * start fails. From a consistent state every write is defined and keeps
   * the state consistent.
   */
  function StoreEnabledIntended(s: System, parsed: Option<i32>, p: Platform): (r: Outcome<Written>)
    requires WellFormed(p.topo, s.online)
    ensures ParseEnabled(s.gov.enabled, parsed).None? ==> r == Ok(Written(Rejected(-EINVAL), s))
    ensures Consistent(s.gov) ==> r.Ok? && Consistent(r.value.sys.gov)
    ensures r.Ok? ==> WellFormed(p.topo, r.value.sys.online)
    ensures r.Ok? && ParseEnabled(s.gov.enabled, parsed) == Some(true) ==>
              (r.value.sys.gov.enabled <==> p.allocOk && p.registerRet == 0)
              && (r.value.reply == Accepted <==> r.value.sys.gov.enabled)
    ensures ParseEnabled(s.gov.enabled, parsed) == Some(true) ==>
              && r.Ok? && r.value.sys.online == s.online
              && (!p.allocOk ==> r.value.reply == Rejected(-EFAULT))
              && (p.allocOk && p.registerRet != 0 ==> r.value.reply == Rejected(p.registerRet))
              && (p.allocOk && p.registerRet == 0 ==> r.value.sys.gov.timer == Queued(HotplugInitDelay))
    ensures r.Ok? && ParseEnabled(s.gov.enabled, parsed) == Some(true) && !(p.allocOk && p.registerRet == 0) ==>
              r.value.reply == Rejected(StartIntended(s.gov, p.allocOk, p.registerRet).ret)
    ensures ParseEnabled(s.gov.enabled, parsed) == Some(false) ==>
              var h := HotplugStop(System(s.gov.(enabled := false), s.online), p);
              (h.Fault? ==> r.Fault?) && (h.Ok? ==> r == Ok(Written(Accepted, h.value)))
  {
    match ParseEnabled(s.gov.enabled, parsed)
    case None => Ok(Written(Rejected(-EINVAL), s))
    case Some(on) =>
      if on then
        var st := StartIntended(s.gov, p.allocOk, p.registerRet);
        if st.ret == 0 then Ok(Written(Accepted, System(st.gov.(enabled := true), s.online)))
        else Ok(Written(Rejected(st.ret), System(st.gov, s.online)))
      else
        match HotplugStop(System(s.gov.(enabled := false), s.online), p)
        case Fault => Fault
        case Ok(sys) => Ok(Written(Accepted, sys))
  }

  /** From a consistent state a delivered event never reaches a NULL notifier. */
  lemma ConsistentDeliverNeverFaults(s: System, event: Event, t: Tunables, p: Platform)
    requires WellFormed(p.topo, s.online) && Consistent(s.gov)
    ensures Deliver(s, event, t, p).Ok?
  {
  }

  /**
   * Any sequence of intended writes from a consistent state, boot among
   * them, stays defined and consistent.
   */
  function StoreEnabledIntendedAll(s: System, topo: Topology, writes: seq<(Option<i32>, Platform)>)
    : (r: Outcome<System>)
    requires WellFormed(topo, s.online)
    requires forall i :: 0 <= i < |writes| ==> writes[i].1.topo == topo
    ensures Consistent(s.gov) ==> r.Ok? && Consistent(r.value.gov)
    decreases |writes|
  {
    if |writes| == 0 then Ok(s)
    else
      match StoreEnabledIntended(s, writes[0].0, writes[0].1)
      case Fault => Fault
      case Ok(w) => StoreEnabledIntendedAll(w.sys, topo, writes[1..])
  }

  /** The same enable, disable, enable sequence with the intended writes reaches a callable notifier. */
  lemma ReenableIntendedDelivers(online: set<nat>, p: Platform, t: Tunables, event: Event)
    requires WellFormed(p.topo, online)
    requires p.allocOk && p.registerRet == 0
    ensures var s0 := System(Boot, online);
            var r1 := StoreEnabledIntended(s0, Some(1), p);
            && r1.Ok?
            && var r2 := StoreEnabledIntended(r1.value.sys, Some(0), p);
            && r2.Ok?
            && var r3 := StoreEnabledIntended(r2.value.sys, Some(1), p);
            && r3.Ok? && r3.value.sys.gov.enabled && r3.value.sys.gov.registered
            && Deliver(r3.value.sys, event, t, p).Ok?
  {
    var s0 := System(Boot, online);
    var r1 := StoreEnabledIntended(s0, Some(1), p);
    var r2 := StoreEnabledIntended(r1.value.sys, Some(0), p);
    var r3 := StoreEnabledIntended(r2.value.sys, Some(1), p);
    assert Consistent(r3.value.sys.gov);
  }
}

=== FILE: power.dfy ===
/**
 * The power-state side of autosmp: the screen-off collapse (`asmp_suspend`),
 * the screen-on restore (`asmp_resume`), the restore on disable
 * (`asmp_hotplug_stop`) and the state-notifier dispatch.
 *
 * Each transition maps the online set to a new online set; the delayed
 * work item is reduced to a timer that is either cancelled or queued with
 * a delay in milliseconds. The `for_each_*_cpu` loops are written as folds
 * over ascending ids, and each fold's contract gives its closed form.
 */
module Power {
  import opened Base
  import opened Tunables
  import opened Hotplug

  /** The delayed work item: not pending, or pending with its delay. */
  datatype Timer = Cancelled | Queued(delayMs: int)

  /**
   * `queue_delayed_work`: a work item that is already pending keeps its
   * original expiry; an idle one is queued with the new delay.
   */
  function Queue(timer: Timer, delayMs: int): (r: Timer)
    ensures r.Queued?
    ensures timer.Cancelled? ==> r.delayMs == delayMs
    ensures timer.Queued? ==> r == timer
  {
    if timer.Queued? then timer else Queued(delayMs)
  }

  /** The online set and the work timer after a transition. */
  datatype Transition = Transition(online: set<nat>, timer: Timer)

  // ---------------------------------------------------------------------
  // Suspend

  /**
   * The suspend loop over the present ids below `k`: every online present
   * core other than core 0 is taken down, unless the kernel refuses.
   */
  function SuspendBelow(topo: Topology, fails: set<nat>, online: set<nat>, k: nat): (r: set<nat>)
    ensures forall c :: c in r <==> c in online && (c == 0 || c >= k || c !in topo.present || c in fails)
    decreases k
  {
    if k == 0 then online
    else
      var prev := SuspendBelow(topo, fails, online, k - 1);
      var c := k - 1;
      if c in topo.present && c > 0 && c in prev then CpuDown(fails, prev, c) else prev
  }

  /**
   * `asmp_suspend`: when enabled and `scroff_single_core` is set, every
   * online core except core 0 is taken down (the ones the kernel refuses
   * stay), and the pending cycle is cancelled; core 0 is never touched.
   * When disabled nothing changes, not even the timer.
   */
  function Suspend(enabled: bool, t: Tunables, topo: Topology, fails: set<nat>,
                   online: set<nat>, timer: Timer): (r: Transition)
    requires WellFormed(topo, online)
    ensures !enabled ==> r == Transition(online, timer)
    ensures enabled ==> r.timer == Cancelled
    ensures enabled && t.scroffSingleCore != 0 ==>
              forall c :: c in r.online <==> c in online && (c == 0 || c in fails)
    ensures enabled && t.scroffSingleCore == 0 ==> r.online == online
    ensures r.online <= online
    ensures 0 in r.online <==> 0 in online
  {
    if !enabled then Transition(online, timer)
    else
      var after := if t.scroffSingleCore != 0 then SuspendBelow(topo, fails, online, topo.nrIds) else online;
      Transition(after, Cancelled)
  }

  /** With no refusals, a screen-off collapse leaves core 0 as the only online core. */
  lemma SuspendLeavesCoreZero(t: Tunables, topo: Topology, online: set<nat>, timer: Timer)
    requires WellFormed(topo, online) && 0 in online
    requires t.scroffSingleCore != 0
    ensures Suspend(true, t, topo, {}, online, timer).online == {0}
  {
    var r := Suspend(true, t, topo, {}, online, timer).online;
    assert forall c :: c in r <==> c == 0;
  }

  // ---------------------------------------------------------------------
  // Resume

  /** The resume loop's online set and whether it has hit its `break`. */
  datatype ResumeState = ResumeState(online: set<nat>, stopped: bool)

  /**
   * The resume loop over the present ids below `k`. The count it tests is
   * `numCpus`, sampled once before the loop, so the test either breaks at
   * the first present core or never fires.
   */
  function ResumeBelow(topo: Topology, fails: set<nat>, online: set<nat>,
                       numCpus: int, maxCpus: u32, k: nat): (r: ResumeState)
    ensures numCpus >= maxCpus ==> r.online == online
    ensures numCpus < maxCpus ==> !r.stopped
    ensures numCpus < maxCpus ==>
              forall c :: c in r.online <==> c in online || (c < k && c in topo.present && c !in fails)
    decreases k
  {
    if k == 0 then ResumeState(online, false)
    else
      var prev := ResumeBelow(topo, fails, online, numCpus, maxCpus, k - 1);
      var c := k - 1;
      if c !in topo.present || prev.stopped then prev
      else if numCpus >= maxCpus then ResumeState(prev.online, true)
      else if c !in prev.online then ResumeState(CpuUp(topo, fails, prev.online, c), false)
      else prev
  }

  /**
   * `asmp_resume`: when enabled and `scroff_single_core` is set, nothing
   * is brought up if `max_cpus` cores were online before the loop, and
   * otherwise EVERY present offline core is brought up (the refused ones
   * excepted), `max_cpus` notwithstanding. When enabled the next cycle is
   * queued with `delay`; when disabled nothing changes.
   */
  function Resume(enabled: bool, t: Tunables, topo: Topology, fails: set<nat>,
                  online: set<nat>, timer: Timer): (r: Transition)
    requires WellFormed(topo, online)
    ensures !enabled ==> r == Transition(online, timer)
    ensures enabled ==> r.timer == Queue(timer, t.delay)
    ensures enabled && (t.scroffSingleCore == 0 || |online| >= ToU32(t.maxCpus)) ==> r.online == online
    ensures enabled && t.scroffSingleCore != 0 && |online| < ToU32(t.maxCpus) ==>
              forall c :: c in r.online <==> c in online || (c in topo.present && c !in fails)
    ensures online <= r.online
    ensures WellFormed(topo, r.online)
  {
    if !enabled then Transition(online, timer)
    else
      var after := if t.scroffSingleCore != 0 then
                     ResumeBelow(topo, fails, online, |online|, ToU32(t.maxCpus), topo.nrIds).online
                   else online;
      Transition(after, Queue(timer, t.delay))
  }

  /**
   * Screen off then screen on, with no refusals: from any online set that
   * holds core 0, and a `max_cpus` above 1, every present core is online
   * again and a cycle is queued.
   */
  lemma SuspendResumeRestoresPresent(t: Tunables, topo: Topology, online: set<nat>, timer: Timer)
    requires WellFormed(topo, online) && 0 in online
    requires t.scroffSingleCore != 0 && t.maxCpus > 1
    ensures var s := Suspend(true, t, topo, {}, online, timer);
            var r := Resume(true, t, topo, {}, s.online, s.timer);
            r.online == topo.present && r.timer == Queued(t.delay)
  {
    var s := Suspend(true, t, topo, {}, online, timer);
    SuspendLeavesCoreZero(t, topo, online, timer);
    assert |s.online| == 1;
  }

  /**
   * The resume loop as evidently intended: the online count is taken
   * again before each core, so the loop stops once `max_cpus` cores are
   * online, the lowest ids first.
   */
  function ResumeIntendedBelow(topo: Topology, fails: set<nat>, online: set<nat>,
                               maxCpus: u32, k: nat): (r: ResumeState)
    ensures online <= r.online
    ensures |online| >= maxCpus ==> r.online == online
    ensures |online| < maxCpus ==> |r.online| <= maxCpus
    ensures forall c :: c in r.online ==> c in online || (c < k && c in topo.present && c !in fails)
    ensures |r.online| < maxCpus ==> forall c :: c < k && c in topo.present && c !in fails ==> c in r.online
    ensures r.stopped ==> |r.online| >= maxCpus
    decreases k
  {
    if k == 0 then ResumeState(online, false)
    else
      var prev := ResumeIntendedBelow(topo, fails, online, maxCpus, k - 1);
      var c := k - 1;
      if c !in topo.present || prev.stopped then prev
      else if |prev.online| >= maxCpus then ResumeState(prev.online, true)
      else if c !in prev.online then ResumeState(CpuUp(topo, fails, prev.online, c), false)
      else prev
  }

  /**
   * `asmp_resume` with the count refreshed inside the loop: the restore
   * never goes past `max_cpus`, and stops short of it only when every
   * present core the kernel accepts is online.
   */
  function ResumeIntended(enabled: bool, t: Tunables, topo: Topology, fails: set<nat>,
                          online: set<nat>, timer: Timer): (r: Transition)
    requires WellFormed(topo, online)
    ensures !enabled ==> r == Transition(online, timer)
    ensures enabled ==> r.timer == Queue(timer, t.delay)
    ensures online <= r.online
    ensures enabled && t.scroffSingleCore != 0 && |online| < ToU32(t.maxCpus) ==> |r.online| <= ToU32(t.maxCpus)
    ensures |r.online| < ToU32(t.maxCpus) && enabled && t.scroffSingleCore != 0 ==>
              forall c :: c in topo.present && c !in fails ==> c in r.online
    ensures forall c :: c in r.online ==> c in online || (c in topo.present && c !in fails)
  {
    if !enabled then Transition(online, timer)
    else
      var after := if t.scroffSingleCore != 0 then
                     ResumeIntendedBelow(topo, fails, online, ToU32(t.maxCpus), topo.nrIds).online
                   else online;
      Transition(after, Queue(timer, t.delay))
  }

  /**
   * With `max_cpus` at 2, core 0 alone online and four present cores,
   * `asmp_resume` brings all four up; the intended loop stops at two.
   */
  lemma ResumeOvershootsMaxCpus()
    ensures var t := Defaults(2).(minCpus := 1);
            var topo := Topology(4, {0, 1, 2, 3});
            && Resume(true, t, topo, {}, {0}, Cancelled).online == {0, 1, 2, 3}
            && |ResumeIntended(true, t, topo, {}, {0}, Cancelled).online| <= 2
  {
    var t := Defaults(2).(minCpus := 1);
    var topo := Topology(4, {0, 1, 2, 3});
    assert |{0}| == 1;
    var r := Resume(true, t, topo, {}, {0}, Cancelled).online;
    assert forall c :: c in r <==> c in topo.present;
  }

  // ---------------------------------------------------------------------
  // Stop

  /**
   * The stop loop over the ids below `k` that are not online: core 0 is
   * skipped, every other one is brought up unless the kernel refuses.
   */
  function StopBelow(topo: Topology, fails: set<nat>, online: set<nat>, k: nat): (r: set<nat>)
    ensures forall c :: c in r <==> c in online || (1 <= c < k && c in topo.present && c !in fails)
    decreases k
  {
    if k == 0 then online
    else
      var prev := StopBelow(topo, fails, online, k - 1);
      var c := k - 1;
      if c != 0 && c !in online then CpuUp(topo, fails, prev, c) else prev
  }

  /**
   * The restore at the end of `asmp_hotplug_stop`: every offline core but
   * core 0 is brought up, so with no refusals every present core >= 1 is
   * online afterwards, whatever the screen state was.
   */
  function StopRestore(topo: Topology, fails: set<nat>, online: set<nat>): (r: set<nat>)
    requires WellFormed(topo, online)
    ensures forall c :: c in r <==> c in online || (c != 0 && c in topo.present && c !in fails)
    ensures fails == {} ==> r == online + (topo.present - {0})
    ensures WellFormed(topo, r)
  {
    StopBelow(topo, fails, online, topo.nrIds)
  }

  // ---------------------------------------------------------------------
  // The state notifier

  /** STATE_NOTIFIER_ACTIVE, STATE_NOTIFIER_SUSPEND, or any other event. */
  datatype Event = ActiveEvent | SuspendEvent | OtherEvent(code: int)

  /**
   * `state_notifier_callback`: disabled, or on an event that is neither
   * ACTIVE nor SUSPEND, nothing changes; ACTIVE runs `asmp_resume`, which
   * restores cores and queues a cycle; SUSPEND runs `asmp_suspend`, which
   * removes cores and cancels the cycle.
   */
  function StateNotifierCallback(enabled: bool, event: Event, t: Tunables, topo: Topology,
                                 fails: set<nat>, online: set<nat>, timer: Timer): (r: Transition)
    requires WellFormed(topo, online)
    ensures !enabled || event.OtherEvent? ==> r == Transition(online, timer)
    ensures enabled && event.ActiveEvent? ==> online <= r.online && r.timer.Queued?
    ensures enabled && event.SuspendEvent? ==> r.online <= online && r.timer == Cancelled
    ensures enabled && event.ActiveEvent? ==> r == Resume(enabled, t, topo, fails, online, timer)
    ensures enabled && event.SuspendEvent? ==> r == Suspend(enabled, t, topo, fails, online, timer)
    ensures 0 in online ==> 0 in r.online
    ensures WellFormed(topo, r.online)
  {
    if !enabled then Transition(online, timer)
    else
      match event
      case ActiveEvent => Resume(enabled, t, topo, fails, online, timer)
      case SuspendEvent => Suspend(enabled, t, topo, fails, online, timer)
      case OtherEvent(_) => Transition(online, timer)
  }
}

=== FILE: tunables.dfy ===
/**
 * The autosmp tunables and their validated stores.
 *
 * Every sysfs write goes through `store_one`: the parsed value is accepted
 * only inside a per-field range, and the ranges of `min_cpus` and
 * `max_cpus` read the current value of the other field. Text parsing is
 * not modelled: a store receives the outcome of `sscanf` as an `Option`.
 */
module Tunables {
  import opened Base

  datatype Tunables = Tunables(
    delay: i32,
    scroffSingleCore: i32,
    maxCpus: i32,
    minCpus: i32,
    cpufreqUp: i32,
    cpufreqDown: i32,
    cycleUp: i32,
    cycleDown: i32)

  /** The eight writable attributes under /sys/kernel/autosmp/conf. */
  datatype Field =
    | Delay | ScroffSingleCore | MinCpus | MaxCpus
    | CpufreqUp | CpufreqDown | CycleUp | CycleDown

  /** The compiled-in defaults; `nrCpus` is CONFIG_NR_CPUS. */
  function Defaults(nrCpus: i32): (t: Tunables)
    ensures 2 <= nrCpus <= 8 ==> Valid(t)
    ensures t.maxCpus == nrCpus && t.minCpus == 2
  {
    Tunables(50, 1, nrCpus, 2, 60, 40, 2, 2)
  }

  function Get(t: Tunables, f: Field): i32 {
    match f
    case Delay => t.delay
    case ScroffSingleCore => t.scroffSingleCore
    case MinCpus => t.minCpus
    case MaxCpus => t.maxCpus
    case CpufreqUp => t.cpufreqUp
    case CpufreqDown => t.cpufreqDown
    case CycleUp => t.cycleUp
    case CycleDown => t.cycleDown
  }

  /** `tunables.name = val` */
  function Set(t: Tunables, f: Field, v: i32): (t': Tunables)
    ensures Get(t', f) == v
    ensures forall g :: g != f ==> Get(t', g) == Get(t, g)
  {
    match f
    case Delay => t.(delay := v)
    case ScroffSingleCore => t.(scroffSingleCore := v)
    case MinCpus => t.(minCpus := v)
    case MaxCpus => t.(maxCpus := v)
    case CpufreqUp => t.(cpufreqUp := v)
    case CpufreqDown => t.(cpufreqDown := v)
    case CycleUp => t.(cycleUp := v)
    case CycleDown => t.(cycleDown := v)
  }

  /** The `down_limit` argument of each `store_one` instance. */
  function Lower(t: Tunables, f: Field): int {
    match f
    case Delay => 10
    case ScroffSingleCore => 0
    case MinCpus => 1
    case MaxCpus => t.minCpus
    case CpufreqUp => 1
    case CpufreqDown => 1
    case CycleUp => 1
    case CycleDown => 1
  }

  /** The `up_limit` argument of each `store_one` instance. */
  function Upper(t: Tunables, f: Field): int {
    match f
    case Delay => 10000
    case ScroffSingleCore => 1
    case MinCpus => t.maxCpus
    case MaxCpus => 8
    case CpufreqUp => 100
    case CpufreqDown => 100
    case CycleUp => 6
    case CycleDown => 6
  }

  /** The core-count bounds the two cross-checked stores keep. */
  predicate CpuRangeOk(t: Tunables) {
    1 <= t.minCpus <= t.maxCpus <= 8
  }

  /** Every field inside the range its store admits. */
  predicate Valid(t: Tunables) {
    && 10 <= t.delay <= 10000
    && 0 <= t.scroffSingleCore <= 1
    && CpuRangeOk(t)
    && 1 <= t.cpufreqUp <= 100
    && 1 <= t.cpufreqDown <= 100
    && 1 <= t.cycleUp <= 6
    && 1 <= t.cycleDown <= 6
  }

  /** The reply of a store: `count` (accepted) or `-EINVAL`. */
  datatype StoreResult = Stored(tunables: Tunables) | Invalid

  /**
   * `store_<name>`: an unparsable value or one outside the field's range
   * is refused with every tunable unchanged; otherwise exactly the named
   * field takes the value. Because the bounds of `min_cpus` and `max_cpus`
   * read the live values, an accepted store never breaks the core-count
   * ordering, nor any other range.
   */
  function StoreOne(t: Tunables, f: Field, parsed: Option<i32>): (r: StoreResult)
    ensures r.Stored? <==> parsed.Some? && Lower(t, f) <= parsed.value <= Upper(t, f)
    ensures r.Stored? ==> Get(r.tunables, f) == parsed.value
    ensures r.Stored? ==> forall g :: g != f ==> Get(r.tunables, g) == Get(t, g)
    ensures r.Stored? && CpuRangeOk(t) ==> CpuRangeOk(r.tunables)
    ensures r.Stored? && Valid(t) ==> Valid(r.tunables)
  {
    if parsed.None? || parsed.value < Lower(t, f) || parsed.value > Upper(t, f) then
      Invalid
    else
      Stored(Set(t, f, parsed.value))
  }

  /**
   * The validation half of `store_enabled`: the new value of `enabled`,
   * or `None` for `-EINVAL`. Only 0 and 1 are admitted, and writing the
   * value `enabled` already has is refused as well, so an accepted write
   * always flips the flag.
   */
  function ParseEnabled(enabled: bool, parsed: Option<i32>): (r: Option<bool>)
    ensures r.Some? <==> parsed.Some? && (parsed.value == 0 || parsed.value == 1)
                         && parsed.value != IntOfBool(enabled)
    ensures r.Some? ==> r.value == !enabled && IntOfBool(r.value) == parsed.value
  {
    if parsed.None? || parsed.value < 0 || parsed.value > 1 || parsed.value == IntOfBool(enabled) then
      None
    else
      Some(parsed.value == 1)
  }

  /** A store that moves `min_cpus` above the current `max_cpus` is refused. */
  lemma MinAboveMaxRejected(t: Tunables, v: i32)
    requires v > t.maxCpus
    ensures StoreOne(t, MinCpus, Some(v)) == Invalid
  {
  }

  /**
   * Whatever sequence of stores is applied, the stores that are accepted
   * keep a valid record valid.
   */
  function StoreAll(t: Tunables, writes: seq<(Field, Option<i32>)>): (t': Tunables)
    ensures Valid(t) ==> Valid(t')
    ensures CpuRangeOk(t) ==> CpuRangeOk(t')
    decreases |writes|
  {
    if |writes| == 0 then t
    else
      var r := StoreOne(t, writes[0].0, writes[0].1);
      StoreAll(if r.Stored? then r.tunables else t, writes[1..])
  }
}
